=== FILE: README.md ===
# SuperCoach session and token lifecycle, in Dafny

This project models the part of the SuperCoach admin dashboard that has
real rules: the browser session kept in three `localStorage` keys
(`access_token`, `refresh_token`, `coach_data`). It covers five pieces:

- the authenticated request executor `makeAuthenticatedRequest`. It attaches
  the bearer token (section 2.1 of RFC 6750). On a 401 or 403 (sections
  15.5.2 and 15.5.4 of RFC 9110) it makes one refresh call and at most one
  retry.
- the two server routes `POST /api/auth/login` and `POST /api/auth/refresh`.
  They validate the body, answer from a mock when no backend is configured,
  and otherwise forward to the backend. An unreadable request body is
  answered 500 and missing fields 400. Of the forwarding failures, a
  rejection named "AbortError" is answered 504. Any other rejection is
  answered 503, and so is a backend answer that is not JSON or is a JSON
  `null` error body. This includes the routes' own 10-second timeout,
  which rejects with a "TimeoutError" (see "## Findings"). A readable
  non-ok backend answer keeps its status and forwards only `message`.
- the page's login, logout and mount-time restore.
- the page's three data loaders.
- the student search filter and the status, icon, label and sign lookups.

Everything is a pure function. Each `fetch` is an outcome supplied from
outside (`Http.Outcome`: a status with a JSON or non-JSON body, a rejection
named "AbortError" or "TimeoutError", or any other rejection). `Date.now()` is a parameter. The navigation
`window.location.href = "/"` is recorded as a `redirect` field. JavaScript
values are `Js.Value`. The coercions the code relies on are modelled
explicitly:

- truthiness and `a || b`;
- property reads, where reading a property of `null` throws a TypeError;
- `String(x)`, used by template literals, `setItem` and `new Error(x)`.

Modules: `Js`, `Http` and `Text` hold the language and string semantics.
`TokenStore` and `Executor` model lib/api.ts. `Proxy`, `LoginRoute` and
`RefreshRoute` model the two routes. `Dashboard`, `Fetchers`, `Labels` and
`StudentSearch` model app/page.tsx. `Lifecycle` composes them over
arbitrary event sequences.

Four behaviours of the code are easy to miss:

- With no refresh token, a 401/403 redirects and fails but removes nothing from storage.
- On the first attempt a caller's `Authorization` header overrides the stored token.
- A refresh token reissued by the refresh endpoint is never stored.
- `isAuthenticated` checks only that `access_token` is non-empty.

## Model

| member | source | states |
|---|---|---|
| `Executor.DefaultHeaders` | lib/api.ts:3-8 | `Content-Type: application/json` is always a default; `Authorization: Bearer <t>` is present iff the stored access token is present and non-empty; no other default header |
| `Executor.Merge` | lib/api.ts:10-16 | the first request's headers are the union of defaults and caller headers, with the caller's value winning on every shared name |
| `Executor.Execute` | lib/api.ts:2-71 | at most three requests. The protected request goes out with the caller's method and merged headers. A POST refresh follows exactly after a 401/403 with a stored refresh token. A retry follows exactly after an ok refresh whose JSON body can be read. A first answer other than 401/403 leaves storage untouched. Storage afterwards is unchanged, fully cleared, or has only `access_token` replaced, by `String(refreshData.access_token)`. `refresh_token` and `coach_data` survive unless everything is cleared. The retry carries the new bearer. A redirect happens exactly after a 401/403 with no refresh token or with a non-ok refresh answer. It always goes to "/" with "Session expired. Please log in again.". Success holds iff the last request, never the refresh call, got an ok answer, which is returned. A non-ok retried answer fails by the same `detail`, `message`, status rule as a first answer. A rejected retry or refresh throws the rejection. An ok refresh whose body is not JSON throws a SyntaxError, and one whose body is `null` throws a TypeError. Token pairing is preserved |
| `Executor.CallerAuthorizationWinsFirst` | lib/api.ts:10-41 | a caller-supplied `Authorization` is sent on the first attempt; the retry always carries the refreshed token |
| `Executor.NoRefreshTokenKeepsStorage` | lib/api.ts:51-56 | 401/403 without a refresh token: one request, redirect to "/", session-expired error, storage exactly as before |
| `Executor.FailedRefreshClearsSession` | lib/api.ts:42-50 | a non-ok refresh answer removes all three keys, redirects to "/", fails with the session-expired message, and issues no retry |
| `Executor.SuccessfulRefreshRetriesOnce` | lib/api.ts:32-41 | after an ok refresh only `access_token` changes (a reissued refresh token is ignored); the retry uses the new bearer; a retry that is itself 401/403 is not refreshed again, does not redirect, and fails with the final non-ok error |
| `Executor.FinalErrorMessage` | lib/api.ts:60-63 | a final non-ok answer fails with `detail` if truthy, else `message` if truthy, else "HTTP error! status: N" |
| `Http.ErrorMessage` | lib/api.ts:62 | for `e.k1 \|\| e.k2 \|\| ... \|\| "HTTP error! status: N"`: the first truthy field among the keys is chosen, rendered with `String`; if none is truthy, the status message |
| `TokenStore.IsAuthenticated` | lib/api.ts:80-82 | authenticated implies a stored access token, and a stored empty access token is not authenticated |
| `TokenStore.GetCoachData` | lib/api.ts:74-77 | an absent or empty key gives null. Stored JSON gives exactly the stored profile. Non-JSON text throws a SyntaxError |
| `Proxy.Relay` | app/api/auth/login/route.ts:42-86 | status 200 iff the backend answered ok with a JSON body, which is returned verbatim. A rejection named "AbortError" gives 504, and unless the backend itself answered 504 nothing else does. The 10-second timeout (a "TimeoutError"), an unreachable backend, a non-JSON body, or a `null` error body gives 503 with the "unavailable" text. A non-ok answer keeps its status and forwards only `message`: the backend's if truthy, else the route's fallback |
| `Proxy.RelayIntended` | app/api/auth/login/route.ts:67-85 | the forwarding step with a timeout test that also accepts "TimeoutError": the timeout and an abort give 504 with the timeout text; unless the backend answered 504 nothing else does |
| `Proxy.TimeoutAnsweredUnavailable` | app/api/auth/login/route.ts:51-85 | as written, a timeout is answered 503 with the "unavailable" text, while the intended step answers 504 with the timeout text; the two agree on every other outcome |
| `LoginRoute.Login` | app/api/auth/login/route.ts:3-96 | a non-JSON or null body gives 500. A missing or empty email or password gives 400, before any configuration check, with no backend call. The backend is called iff the credentials are given and a backend is configured, and the call carries exactly the email and password. Mock mode answers 200 with the mock session iff the credentials are exactly the demo pair, and 401 "Invalid email or password" otherwise |
| `LoginRoute.MockDemoLogin` | app/api/auth/login/route.ts:21-39 | the demo login yields 200 with two non-empty tokens, the demo email as `coach.email`, and `expires_in` 3600; a wrong password yields 401 |
| `LoginRoute.MockTokensDistinct` | app/api/auth/login/route.ts:24-25 | mock tokens from different clock readings differ, and a mock access token never equals a mock refresh token |
| `LoginRoute.ForbiddenPassThrough` | app/api/auth/login/route.ts:56-63 | a backend 403 with message "forbidden" is answered as 403 with exactly that message |
| `LoginRoute.TimeoutMapping` | app/api/auth/login/route.ts:51-85 | with a backend configured, the 10-second timeout gives 503 "Authentication service unavailable. Please try again later."; only a rejection named "AbortError" gives 504 |
| `RefreshRoute.Refresh` | app/api/auth/refresh/route.ts:3-74 | a non-JSON or null body gives 500. A missing or empty `refresh_token` gives 400, with no backend call. The backend is called iff a token is given and a backend is configured, and the forwarded body carries exactly that token. Mock mode always answers 200 and echoes the token unchanged, with a timestamped access token |
| `RefreshRoute.EmptyTokenRefused` | app/api/auth/refresh/route.ts:8-10 | an empty refresh token gives 400 "Refresh token is required" in either mode, with no backend call |
| `RefreshRoute.TimeoutMapping` | app/api/auth/refresh/route.ts:36-68 | with a backend configured, the 10-second timeout and an unreachable backend both give 503 "Token refresh service unavailable. Please try again later."; only a rejection named "AbortError" gives 504 "Token refresh timeout. Please try again." |
| `Dashboard.HandleLogin` | app/page.tsx:1084-1126 | an ok JSON answer writes all three keys (`coach_data` holds the serialised `coach`), shows the dashboard, and clears the form and error. Any failure writes nothing and shows the error. A non-ok answer's error is its `message`, else "HTTP error! status: N". Token pairing holds afterwards or storage is unchanged |
| `Dashboard.HandleLogout` | app/page.tsx:1128-1135 | removes exactly the three keys, so the store is not authenticated and has no profile; shows the logged-out view on the "home" tab; keeps the form |
| `Dashboard.Restore` | app/page.tsx:1137-1159 | logs in iff `access_token` and `coach_data` are both truthy and the profile parses, restoring that profile. A profile that does not parse clears all three keys. If either key is missing, nothing changes |
| `Dashboard.LoginSurvivesReload` | app/page.tsx:1106-1146 | after a successful login with a non-empty stored access token and a `coach` field, a page reload restores the same profile |
| `Dashboard.LoginProfileReadBack` | app/page.tsx:1111 | after a successful login `getCoachData()` returns exactly the answer's `coach`. Without a `coach` field it throws a SyntaxError |
| `Dashboard.MissingCoachDiscardedOnReload` | app/page.tsx:1111-1153 | a login answer without `coach` stores the text "undefined", so the next reload discards the whole session |
| `Dashboard.EmptyAccessTokenNotAuthenticated` | app/page.tsx:1106-1117 | an ok login with an empty `access_token` shows the dashboard and stores both tokens, yet `isAuthenticated` is false |
| `Fetchers.Load` | app/page.tsx:264-288 | without a non-empty stored token it fails with "Authentication token not found. Please log in." and sends no request. Otherwise it sends one GET with the bearer header. It succeeds iff the answer is ok with JSON, and that JSON is the result. A non-ok answer fails with `detail` or the status message |
| `Fetchers.LoadList` | app/page.tsx:476-508 | same request and errors as `Load`; an array payload is returned as its items and any other payload as the empty list |
| `Fetchers.LoadStudentDetail` | app/page.tsx:669-701 | sends a GET to `/api/students/<id>`, succeeds iff the answer is ok JSON, and uses the body as it is |
| `Fetchers.NoTokenNoRequest` | app/page.tsx:265-270 | without a token, none of the three loaders makes a request, whatever the network would answer |
| `Fetchers.UnauthorizedIsNotRetried` | app/page.tsx:282-285 | a 401 to a loader is reported as an error after a single request |
| `StudentSearch.Filter` | app/page.tsx:312-317 | a student is kept iff the lower-cased term occurs in the lower-cased name, email or status; the result is an order-preserving subsequence of the input |
| `StudentSearch.EmptyTermKeepsAll` | app/page.tsx:312-317 | an empty search term lists every student, in order |
| `StudentSearch.FilterIdempotent` | app/page.tsx:312-317 | filtering twice with a term equals filtering once |
| `StudentSearch.FilterAppend` | app/page.tsx:312-317 | filtering distributes over concatenation, which fixes the result even with duplicate students |
| `StudentSearch.SearchIgnoresTermCase` | app/page.tsx:312-317 | two terms with the same lower-case form give the same list |
| `Text.ContainsIffOccurs` | app/page.tsx:314-316 | the scanning `includes` holds iff the term occurs at some index |
| `Text.ReplaceFirst` | app/page.tsx:855 | `replace("_", " ")` keeps the length and changes exactly the first underscore |
| `Labels.StudentStatusColor` | app/page.tsx:297-310 | case-insensitive; non-default colour iff the lower-cased status is active, inactive, pending or suspended |
| `Labels.TaskStatusColor` | app/page.tsx:703-716 | case-insensitive; non-default colour iff the lower-cased status is completed, pending, skipped or in_progress |
| `Labels.TaskStatusIcon` | app/page.tsx:718-729 | case-insensitive; non-default icon iff the lower-cased status is completed, pending or skipped (in_progress gets the default) |
| `Labels.TransactionIcon` | app/page.tsx:750-761 | case-insensitive; non-default icon iff earned, bonus or deducted; the deducted icon iff the lower-cased type is "deducted" |
| `Labels.ConversationStatusColor` | app/page.tsx:1161-1174 | case-sensitive; non-default colour iff the status is exactly New, In Progress, Stuck or Completed |
| `Labels.StatusLabel` | app/page.tsx:855 | same length; the first underscore becomes a space and every other character is upper-cased |
| `Labels.TransactionLabel` | app/page.tsx:994 | same length; the first underscore becomes a space and every other character is kept, so a type without an underscore is shown unchanged |
| `Labels.PointsSign` | app/page.tsx:1004 | "-" iff the type is exactly "deducted", "+" otherwise |
| `Labels.LookupsIgnoreCase` | app/page.tsx:703-761 | the case-insensitive lookups agree on statuses with the same lower-case form |
| `Labels.ConversationColorIsCaseSensitive` | app/page.tsx:1161-1174 | "New" and "new" get different colours |
| `Labels.DeductedIconWithPlusSign` | app/page.tsx:991-1004 | a "Deducted" transaction gets the deducted icon but a "+" sign |
| `Labels.LaterUnderscoresSurvive` | app/page.tsx:855 | any underscore after the first stays an underscore in both labels |
| `Js.NatToString` | app/api/auth/login/route.ts:24 | the rendering is a non-empty digit string that reads back as the number, with no leading zero. It is one character exactly below 10 and ends with the last digit |
| `Js.NatToStringInjective` | app/api/auth/login/route.ts:24-25 | different timestamps render as different strings |
| `Js.StampedInjective` | app/api/auth/login/route.ts:24-25 | a fixed prefix followed by two timestamps gives equal strings only for equal timestamps |
| `Lifecycle.Apply` | lib/api.ts:42-56 | each single transition preserves token pairing. An API call that redirects shows a new page in its initial state, and one that does not keeps the page state |
| `Lifecycle.PairingPreserved` | lib/api.ts:32-56 | over any sequence of logins, logouts, page loads and authenticated calls, both tokens stay stored together or are both absent |
| `Lifecycle.LogoutEndsEverySession` | app/page.tsx:1128-1131 | whatever happened before, a logout leaves all three keys removed |
| `Lifecycle.MockLoginEndToEnd` | app/api/auth/login/route.ts:21-36 | the demo login through the mock route stores the two stamped tokens and the demo profile, and the store is authenticated |
| `Lifecycle.MockRefreshCycle` | app/api/auth/refresh/route.ts:14-26 | a 401 handled by the mock refresh route leads to exactly three requests. Only the access token is replaced, by the refreshed mock token. The retry carries it, and there is no redirect |

## Findings

| source | as written | input that shows it | evidently intended | confidence | as-written member | corrected member |
|---|---|---|---|---|---|---|
| app/api/auth/login/route.ts:51-85 | the `catch` answers 504 only when `fetchError.name === "AbortError"` (likewise app/api/auth/refresh/route.ts:36-68), but the request's signal is `AbortSignal.timeout(10000)`, whose expiry rejects the fetch with a "TimeoutError" | a backend that does not answer within 10 seconds: the route answers 503 "... service unavailable ..." | a timeout answered 504 with the route's timeout text | not executed; relies on the DOM and Fetch standards' definition of `AbortSignal.timeout` | `Proxy.TimeoutAnsweredUnavailable` | `Proxy.RelayIntended` |

The routes `LoginRoute.Login` and `RefreshRoute.Refresh` are modelled as
written, with `Proxy.Relay`, whose contract states the 503. `Proxy.RelayIntended` states the corrected
forwarding step, and `Proxy.TimeoutAnsweredUnavailable` proves that the two
differ exactly on the timeout.

## Left out

- Rendering: JSX, animation, layout, modals, tabs and the mock data arrays. They hold no rules to state.
- Real `fetch`, `AbortSignal.timeout(10000)` timing and `window.location` navigation. They are replaced by supplied outcomes and a recorded redirect.
- The 2-second `setTimeout` before the mount-time restore, and React state and effect scheduling, including the loading flags.
- Concurrent calls that race on a refresh. The code does not coordinate them.
- Date and locale formatting (`toLocaleDateString`, `toLocaleString`). It depends on the platform's Intl data.
- Non-ASCII letters. `toLowerCase` and `toUpperCase` are modelled on ASCII only.
- JSON text. A stored profile is either `Serialized(value)`, which parses back to that value, or `Garbled(text)`, which does not parse.
- Floating-point numbers. JSON numbers are integers in the model.
- The effect guard `if (studentId)` before the student-detail loader.
- The loaders' fallback messages ("Failed to fetch students", ...). They cannot be reached, because every value thrown there is an `Error`.
- The engine-specific message texts of TypeError, SyntaxError and fetch rejections. These are kept as distinct exception kinds.
- `console` logging.
- Request options other than method, headers and body. They pass through `makeAuthenticatedRequest` unchanged.
- Caller headers given as a `Headers` object or an array. They are modelled as a plain object with case-sensitive names.
- `TokenStore.IsAuthenticated`: its contract states that a missing or empty access token is not authenticated. That a non-empty token authenticates is its definition and is not restated.

=== FILE: dashboard.dfy ===
/** The session transitions of the `SuperCoachAI` page component
    (app/page.tsx): `handleLogin` (its storage and state effects),
    `handleLogout`, and the session restore run when the page mounts. */
module Dashboard {
  import opened Js
  import opened Http
  import opened TokenStore

  const LoginUrl := "/api/auth/login"
  const HomeTab := "home"

  /** The component state the transitions touch: whether the dashboard is
      shown, the active tab, the coach profile (`coachData` state, a JS
      value that may be `undefined`), the login error shown (None for ""),
      and the login form fields. */
  datatype Ui = Ui(loggedIn: bool, activeTab: string, coach: Prop, authError: Option<Thrown>, email: string, password: string)

  /** The state after a page load, before the restore runs. */
  const Initial := Ui(false, HomeTab, Defined(Null), None, "", "")

  datatype Step = Step(store: Store, ui: Ui)

  /** The POST `handleLogin` sends with the form's fields. */
  function LoginRequest(ui: Ui): Request {
    Request(MethodPost, LoginUrl, map[ContentType := JsonMedia], Some(Obj(map["email" := Str(ui.email), "password" := Str(ui.password)])))
  }

  /** The login answer is ok and its body a JSON value whose fields can be read. */
  predicate LoginSucceeds(o: Outcome) {
    o.Responded? && IsOk(o.status) && o.body.Json? && !o.body.value.Null?
  }

  /** What `localStorage.setItem("coach_data", JSON.stringify(coach))` stores:
      `JSON.stringify(undefined)` is `undefined`, stored as the text "undefined". */
  function SerializeCoach(coach: Prop): CoachBlob {
    match coach
    case Undefined => Garbled("undefined")
    case Defined(v) => Serialized(v)
  }

  /** The exception that ends a failed login. */
  function LoginFailure(o: Outcome): Thrown
    requires !LoginSucceeds(o)
  {
    match o
    case Responded(st, body) =>
      if !IsOk(st) then FailureFor(st, body, ["message"])
      else if body.NotJson? then SyntaxError
      else TypeError
    case _ => Rejection(o)
  }

  /** `handleLogin`, given the outcome `o` of its POST to the login route. */
  function HandleLogin(store: Store, ui: Ui, o: Outcome): (s: Step)
    // success writes all three keys from the answer and shows the dashboard
    ensures LoginSucceeds(o) ==>
              var data := o.body.value;
              && s.store == Store(Some(PropToString(Get(data, "access_token"))),
                                  Some(PropToString(Get(data, "refresh_token"))),
                                  Some(SerializeCoach(Get(data, "coach"))))
              && s.ui == Ui(true, ui.activeTab, Get(data, "coach"), None, "", "")
    // failure writes nothing and shows the error; a non-ok answer's error is its `message` or the status
    ensures !LoginSucceeds(o) ==> s.store == store && s.ui == ui.(authError := Some(LoginFailure(o)))
    ensures o.Responded? && !IsOk(o.status) && o.body.Json? && !o.body.value.Null? ==>
              s.ui.authError == Some(Error(ErrorMessage(o.status, o.body.value, ["message"])))
    ensures Paired(s.store) || s.store == store
  {
    if LoginSucceeds(o) then
      var data := o.body.value;
      var coach := Get(data, "coach");
      Step(Store(Some(PropToString(Get(data, "access_token"))),
                 Some(PropToString(Get(data, "refresh_token"))),
                 Some(SerializeCoach(coach))),
           Ui(true, ui.activeTab, coach, None, "", ""))
    else
      Step(store, ui.(authError := Some(LoginFailure(o))))
  }

  /** `handleLogout` */
  function HandleLogout(store: Store, ui: Ui): (s: Step)
    ensures !IsAuthenticated(s.store) && GetCoachData(s.store) == Normal(Null)
    ensures s.store.accessToken.None? && s.store.refreshToken.None? && s.store.coachData.None?
    ensures !s.ui.loggedIn && s.ui.activeTab == HomeTab && s.ui.coach == Defined(Null)
    ensures s.ui.authError == ui.authError && s.ui.email == ui.email && s.ui.password == ui.password
  {
    Step(Cleared, ui.(loggedIn := false, activeTab := HomeTab, coach := Defined(Null)))
  }

  /** Both `access_token` and `coach_data` read back truthy. */
  predicate SessionStored(store: Store) {
    Present(store.accessToken) && CoachPresent(store)
  }

  /** The mount-time restore: with a stored access token and profile, a
      profile that parses logs the user in; one that does not clears all
      three keys. Otherwise nothing happens. */
  function Restore(store: Store, ui: Ui): (s: Step)
    ensures s.ui.loggedIn <==> ui.loggedIn || (SessionStored(store) && store.coachData.value.Serialized?)
    ensures SessionStored(store) && store.coachData.value.Serialized? ==>
              s.store == store && s.ui == ui.(coach := Defined(store.coachData.value.profile), loggedIn := true)
    ensures SessionStored(store) && store.coachData.value.Garbled? ==> s == Step(Cleared, ui)
    ensures !SessionStored(store) ==> s == Step(store, ui)
    ensures Paired(store) ==> Paired(s.store)
  {
    if !SessionStored(store) then Step(store, ui)
    else match store.coachData.value
      case Serialized(profile) => Step(store, ui.(coach := Defined(profile), loggedIn := true))
      case Garbled(_) => Step(Cleared, ui)
  }

  /** After a successful login whose answer's access token is stored as a
      non-empty string and which carries a coach profile, a page reload
      restores the same profile. */
  lemma LoginSurvivesReload(store: Store, ui: Ui, o: Outcome)
    requires LoginSucceeds(o)
    requires PropToString(Get(o.body.value, "access_token")) != ""
    requires Get(o.body.value, "coach").Defined?
    ensures var after := HandleLogin(store, ui, o);
      && Restore(after.store, Initial).ui.loggedIn
      && Restore(after.store, Initial).ui.coach == after.ui.coach
  {
  }

  /** After a successful login, `getCoachData()` returns exactly the
      answer's `coach`; without a `coach` field it throws a SyntaxError,
      since the stored text "undefined" is not JSON. */
  lemma LoginProfileReadBack(store: Store, ui: Ui, o: Outcome)
    requires LoginSucceeds(o)
    ensures var coach := Get(o.body.value, "coach");
      && (coach.Defined? ==> GetCoachData(HandleLogin(store, ui, o).store) == Normal(coach.value))
      && (coach == Undefined ==> GetCoachData(HandleLogin(store, ui, o).store) == Abrupt(SyntaxError))
  {
  }

  /** A login answer without a `coach` field stores "undefined" as the
      profile, so the next page load discards the whole session. */
  lemma MissingCoachDiscardedOnReload(store: Store, ui: Ui, o: Outcome)
    requires LoginSucceeds(o)
    requires PropToString(Get(o.body.value, "access_token")) != ""
    requires Get(o.body.value, "coach") == Undefined
    ensures Restore(HandleLogin(store, ui, o).store, Initial) == Step(Cleared, Initial)
  {
  }

  /** An ok login answer with an empty `access_token` still shows the
      dashboard and stores both tokens, yet the store does not count as
      authenticated. */
  lemma EmptyAccessTokenNotAuthenticated(store: Store, ui: Ui, refresh: string)
    ensures var s := HandleLogin(store, ui, Responded(200, Json(Obj(map["access_token" := Str(""), "refresh_token" := Str(refresh)]))));
      && s.ui.loggedIn && Paired(s.store) && s.store.refreshToken == Some(refresh)
      && !IsAuthenticated(s.store)
  {
    assert Get(Obj(map["access_token" := Str(""), "refresh_token" := Str(refresh)]), "refresh_token") == Defined(Str(refresh));
  }
}

=== FILE: executor.dfy ===
/** `makeAuthenticatedRequest` of lib/api.ts: attach the stored bearer token,
    and on a 401/403 make one refresh call and at most one retry. The three
    possible fetches take their outcomes from a `Script`; the page
    navigation `window.location.href = "/"` is recorded as `redirect`. */
module Executor {
  import opened Js
  import opened Http
  import opened TokenStore

  const RefreshUrl := "/api/auth/refresh"
  const SessionExpiredMessage := "Session expired. Please log in again."
  const LoginPage := "/"

  /** The outcomes of the protected request, the refresh call and the retry,
      in the order the executor would issue them; unused ones are ignored. */
  datatype Script = Script(first: Outcome, refresh: Outcome, retry: Outcome)

  /** A resolved `fetch` handed back to the caller. */
  datatype Response = Response(status: Status, body: Body)

  /** Everything one call changes: its completion, the storage afterwards,
      the navigation it started, and the requests it issued, in order. */
  datatype Exec = Exec(result: Completion<Response>, store: Store, redirect: Option<string>, calls: seq<Request>)

  /** `defaultHeaders`: JSON content type always, the bearer header only for a
      stored, non-empty access token. */
  function DefaultHeaders(accessToken: Option<string>): (h: Headers)
    ensures ContentType in h && h[ContentType] == JsonMedia
    ensures Authorization in h <==> Present(accessToken)
    ensures Authorization in h ==> h[Authorization] == Bearer(accessToken.value)
    ensures h.Keys <= {ContentType, Authorization}
  {
    var base := map[ContentType := JsonMedia];
    if Present(accessToken) then base[Authorization := Bearer(accessToken.value)] else base
  }

  /** `config.headers = {...defaultHeaders, ...options.headers}`, so a caller's header wins. */
  function Merge(defaults: Headers, caller: Headers): (h: Headers)
    ensures h.Keys == defaults.Keys + caller.Keys
    ensures forall k :: k in caller ==> h[k] == caller[k]
    ensures forall k :: k in defaults && k !in caller ==> h[k] == defaults[k]
  {
    defaults + caller
  }

  /** `fetch("/api/auth/refresh", ...)`: the POST to the refresh endpoint. */
  function RefreshRequest(token: string): Request {
    Request(MethodPost, RefreshUrl, map[ContentType := JsonMedia], Some(Obj(map["refresh_token" := Str(token)])))
  }

  function SessionExpired(store: Store, calls: seq<Request>): Exec {
    Exec(Abrupt(Error(SessionExpiredMessage)), store, Some(LoginPage), calls)
  }

  /** `if (!response.ok) { ... }` after the optional refresh: the final check on the last response. A non-ok status
      throws with the body's `detail`, else `message`, else a status message. */
  function Settle(o: Outcome, store: Store, calls: seq<Request>): Exec {
    match o
    case Responded(st, body) =>
      if IsOk(st) then Exec(Normal(Response(st, body)), store, None, calls)
      else Exec(Abrupt(FailureFor(st, body, ["detail", "message"])), store, None, calls)
    case _ => Exec(Abrupt(Rejection(o)), store, None, calls)
  }

  /** The first request's headers. */
  function FirstHeaders(store: Store, headers: Headers): Headers {
    Merge(DefaultHeaders(store.accessToken), headers)
  }

  /** `makeAuthenticatedRequest(url, {method: verb, headers, body: payload})`;
      `verb` is the caller's `method` (`fetch` itself defaults it to "GET"). */
  function Execute(store: Store, url: string, verb: string, headers: Headers, payload: Option<Value>, net: Script): (x: Exec)
    // the first request always goes out, with the merged headers
    ensures 1 <= |x.calls| <= 3
    ensures x.calls[0] == Request(verb, url, FirstHeaders(store, headers), payload)
    // a refresh happens only after a 401/403 and only with a stored refresh token
    ensures |x.calls| >= 2 <==> net.first.Responded? && IsAuthFailure(net.first.status) && Present(store.refreshToken)
    ensures |x.calls| >= 2 ==> x.calls[1] == RefreshRequest(store.refreshToken.value)
    // a retry happens exactly after an ok refresh answer whose JSON body can be read
    ensures |x.calls| == 3 <==>
              && |x.calls| >= 2
              && net.refresh.Responded? && IsOk(net.refresh.status)
              && net.refresh.body.Json? && !net.refresh.body.value.Null?
    // the stored access token is `String(refreshData.access_token)`, and the retry carries it
    ensures |x.calls| == 3 ==> x.store.accessToken == Some(PropToString(Get(net.refresh.body.value, "access_token")))
    ensures |x.calls| == 3 ==> (
              && x.store.accessToken.Some?
              && x.store == store.(accessToken := x.store.accessToken)
              && x.calls[2] == Request(verb, url, x.calls[0].headers[Authorization := Bearer(x.store.accessToken.value)], payload))
    // anything but a 401/403 first answer leaves storage alone and is settled directly
    ensures !(net.first.Responded? && IsAuthFailure(net.first.status)) ==> x == Settle(net.first, store, [x.calls[0]])
    // storage is unchanged, cleared whole, or has only its access token replaced
    ensures x.store == store || x.store == Cleared || (|x.calls| == 3 && x.store == store.(accessToken := x.store.accessToken))
    ensures x.store.refreshToken == store.refreshToken || x.store == Cleared
    ensures x.store.coachData == store.coachData || x.store == Cleared
    // a redirect happens exactly after a 401/403 with no refresh token or with a non-ok refresh answer
    ensures x.redirect.Some? <==>
              && net.first.Responded? && IsAuthFailure(net.first.status)
              && (!Present(store.refreshToken) || (net.refresh.Responded? && !IsOk(net.refresh.status)))
    // and it is always to the entry page, with the session-expired error, and never after a retry
    ensures x.redirect.Some? ==> x.redirect == Some(LoginPage) && x.result == Abrupt(Error(SessionExpiredMessage)) && |x.calls| <= 2
    ensures x.store == Cleared && store != Cleared ==> x.redirect.Some?
    // success is exactly an ok answer to the last request issued, the refresh call never being last
    ensures x.result.Normal? <==>
              && |x.calls| != 2
              && (var last := if |x.calls| == 3 then net.retry else net.first; last.Responded? && IsOk(last.status))
    // the error thrown after a refresh: the final check applies to the retried answer too
    ensures |x.calls| == 3 && net.retry.Responded? && !IsOk(net.retry.status) ==>
              x.result == Abrupt(FailureFor(net.retry.status, net.retry.body, ["detail", "message"]))
    ensures |x.calls| == 3 && !net.retry.Responded? ==> x.result == Abrupt(Rejection(net.retry))
    ensures |x.calls| == 2 && !net.refresh.Responded? ==> x.result == Abrupt(Rejection(net.refresh))
    ensures |x.calls| == 2 && net.refresh.Responded? && IsOk(net.refresh.status) ==>
              x.result == Abrupt(if net.refresh.body.NotJson? then SyntaxError else TypeError)
    ensures x.result.Normal? ==>
              && (if |x.calls| == 3 then net.retry else net.first) == Responded(x.result.value.status, x.result.value.body)
              && IsOk(x.result.value.status)
    ensures Paired(store) ==> Paired(x.store)
  {
    var config := FirstHeaders(store, headers);
    var first := Request(verb, url, config, payload);
    if !(net.first.Responded? && IsAuthFailure(net.first.status)) then
      Settle(net.first, store, [first])
    else if !Present(store.refreshToken) then
      SessionExpired(store, [first])
    else
      var refresh := RefreshRequest(store.refreshToken.value);
      match net.refresh
      case Responded(rst, rbody) =>
        if !IsOk(rst) then SessionExpired(Cleared, [first, refresh])
        else (
          match rbody
          case NotJson => Exec(Abrupt(SyntaxError), store, None, [first, refresh])
          case Json(data) =>
            if data.Null? then Exec(Abrupt(TypeError), store, None, [first, refresh])
            else
              var token := PropToString(Get(data, "access_token"));
              var retry := Request(verb, url, config[Authorization := Bearer(token)], payload);
              Settle(net.retry, store.(accessToken := Some(token)), [first, refresh, retry]))
      case _ => Exec(Abrupt(Rejection(net.refresh)), store, None, [first, refresh])
  }

  /** On the first attempt a caller-supplied `Authorization` header wins
      over the stored token; the retry always carries the refreshed token. */
  lemma CallerAuthorizationWinsFirst(store: Store, url: string, verb: string, headers: Headers, payload: Option<Value>, net: Script)
    requires Authorization in headers
    ensures var x := Execute(store, url, verb, headers, payload, net);
      && x.calls[0].headers[Authorization] == headers[Authorization]
      && (|x.calls| == 3 ==> x.calls[2].headers[Authorization] == Bearer(x.store.accessToken.value))
  {
  }

  /** A 401/403 without a stored refresh token redirects and fails, but
      removes nothing from storage. */
  lemma NoRefreshTokenKeepsStorage(store: Store, url: string, verb: string, headers: Headers, payload: Option<Value>, net: Script)
    requires net.first.Responded? && IsAuthFailure(net.first.status)
    requires !Present(store.refreshToken)
    ensures Execute(store, url, verb, headers, payload, net)
         == Exec(Abrupt(Error(SessionExpiredMessage)), store, Some(LoginPage), [Request(verb, url, FirstHeaders(store, headers), payload)])
  {
  }

  /** A refresh answered with a non-ok status clears all three keys,
      redirects once, and makes no retry. */
  lemma FailedRefreshClearsSession(store: Store, url: string, verb: string, headers: Headers, payload: Option<Value>, net: Script)
    requires net.first.Responded? && IsAuthFailure(net.first.status)
    requires Present(store.refreshToken)
    requires net.refresh.Responded? && !IsOk(net.refresh.status)
    ensures var x := Execute(store, url, verb, headers, payload, net);
      && x.store == Cleared
      && x.redirect == Some(LoginPage)
      && x.result == Abrupt(Error(SessionExpiredMessage))
      && x.calls == [Request(verb, url, FirstHeaders(store, headers), payload), RefreshRequest(store.refreshToken.value)]
  {
  }

  /** A successful refresh stores only the new access token (a reissued
      refresh token in the answer is ignored) and retries once with it; a
      retry that is itself refused is not refreshed again. */
  lemma SuccessfulRefreshRetriesOnce(store: Store, url: string, verb: string, headers: Headers, payload: Option<Value>,
                                     net: Script, access: string, reissued: string)
    requires net.first.Responded? && IsAuthFailure(net.first.status)
    requires Present(store.refreshToken)
    requires net.refresh == Responded(200, Json(Obj(map["access_token" := Str(access), "refresh_token" := Str(reissued)])))
    requires net.retry.Responded? && IsAuthFailure(net.retry.status)
    ensures var x := Execute(store, url, verb, headers, payload, net);
      && x.store == Store(Some(access), store.refreshToken, store.coachData)
      && |x.calls| == 3
      && x.calls[2].headers[Authorization] == Bearer(access)
      && x.redirect.None?
      && x.result == Abrupt(FailureFor(net.retry.status, net.retry.body, ["detail", "message"]))
  {
  }

  /** Error messages for a final non-ok answer: `detail` first, then
      `message`, then "HTTP error! status: N". */
  lemma FinalErrorMessage(status: Status, detail: Value, message: Value)
    requires !IsOk(status)
    ensures Truthy(detail) ==>
      FailureFor(status, Json(Obj(map["detail" := detail, "message" := message])), ["detail", "message"])
        == Error(ValueToString(detail))
    ensures !Truthy(detail) && Truthy(message) ==>
      FailureFor(status, Json(Obj(map["detail" := detail, "message" := message])), ["detail", "message"])
        == Error(ValueToString(message))
    ensures FailureFor(status, Json(Obj(map[])), ["detail", "message"]) == Error("HTTP error! status: " + NatToString(status))
  {
    var v := Obj(map["detail" := detail, "message" := message]);
    assert Get(v, "detail") == Defined(detail);
    assert Get(v, "message") == Defined(message);
    assert Get(Obj(map[]), "detail") == Undefined;
    assert Get(Obj(map[]), "message") == Undefined;
    var keys := ["detail", "message"];
    assert keys[0] == "detail" && keys[1] == "message";
  }
}

=== FILE: fetchers.dfy ===
/** The three data loaders of app/page.tsx (`fetchStudents`,
    `fetchCourses`, `fetchStudentDetail`). They call the backend directly,
    not through the authenticated request executor: no refresh, no retry. */
module Fetchers {
  import opened Js
  import opened Http

  const ApiBase := "https://dfd0b0c67bcc.ngrok-free.app"
  const StudentsUrl := ApiBase + "/api/students"
  const MetricsUrl := ApiBase + "/api/dashboard/metrics"
  const MissingTokenText := "Authentication token not found. Please log in."

  /** The request a loader made, if any, and how it completed. */
  datatype Fetched<T> = Fetched(request: Option<Request>, result: Completion<T>)

  function LoaderHeaders(token: string): Headers {
    map["ngrok-skip-browser-warning" := "true", ContentType := JsonMedia, Authorization := Bearer(token)]
  }

  /** The part the loaders share: the token guard, the GET, the error taken
      from `detail` (not `message`) or the status, and the parsed body. */
  function Load(accessToken: Option<string>, url: string, o: Outcome): (f: Fetched<Value>)
    ensures !Present(accessToken) ==> f == Fetched(None, Abrupt(Error(MissingTokenText)))
    ensures Present(accessToken) ==> f.request == Some(Request(MethodGet, url, LoaderHeaders(accessToken.value), None))
    ensures f.result.Normal? <==> Present(accessToken) && o.Responded? && IsOk(o.status) && o.body.Json?
    ensures f.result.Normal? ==> o.body == Json(f.result.value)
    ensures Present(accessToken) && o.Responded? && !IsOk(o.status) ==>
              f.result == Abrupt(FailureFor(o.status, o.body, ["detail"]))
  {
    if !Present(accessToken) then Fetched(None, Abrupt(Error(MissingTokenText)))
    else
      var request := Some(Request(MethodGet, url, LoaderHeaders(accessToken.value), None));
      match o
      case Responded(st, body) =>
        if !IsOk(st) then Fetched(request, Abrupt(FailureFor(st, body, ["detail"])))
        else Fetched(request, ReadJson(body))
      case _ => Fetched(request, Abrupt(Rejection(o)))
  }

  /** `fetchStudents` / `fetchCourses`: `Array.isArray(data) ? data : []`. */
  function LoadList(accessToken: Option<string>, url: string, o: Outcome): (f: Fetched<seq<Value>>)
    ensures f.request == Load(accessToken, url, o).request
    ensures f.result.Normal? <==> Load(accessToken, url, o).result.Normal?
    ensures f.result.Abrupt? ==> f.result.thrown == Load(accessToken, url, o).result.thrown
    ensures f.result.Normal? && o.body.value.Arr? ==> f.result.value == o.body.value.items
    ensures f.result.Normal? && !o.body.value.Arr? ==> f.result.value == []
  {
    var f := Load(accessToken, url, o);
    match f.result
    case Normal(data) => Fetched(f.request, Normal(if data.Arr? then data.items else []))
    case Abrupt(e) => Fetched(f.request, Abrupt(e))
  }

  /** `fetchStudentDetail` for student `id`: the body is used as it is. */
  function LoadStudentDetail(accessToken: Option<string>, id: int, o: Outcome): (f: Fetched<Value>)
    ensures Present(accessToken) ==> f.request.Some? && f.request.value.verb == MethodGet
                                     && f.request.value.url == StudentsUrl + "/" + IntToString(id)
    ensures f.result.Normal? <==> Present(accessToken) && o.Responded? && IsOk(o.status) && o.body.Json?
    ensures f.result.Normal? ==> o.body == Json(f.result.value)
  {
    Load(accessToken, StudentsUrl + "/" + IntToString(id), o)
  }

  /** Without a stored token no loader touches the network, whatever the
      network would have answered. */
  lemma NoTokenNoRequest(accessToken: Option<string>, id: int, o: Outcome)
    requires !Present(accessToken)
    ensures LoadList(accessToken, StudentsUrl, o) == Fetched(None, Abrupt(Error(MissingTokenText)))
    ensures LoadList(accessToken, MetricsUrl, o) == Fetched(None, Abrupt(Error(MissingTokenText)))
    ensures LoadStudentDetail(accessToken, id, o) == Fetched(None, Abrupt(Error(MissingTokenText)))
  {
  }

  /** A 401 is reported, never refreshed: the loader makes one request only. */
  lemma UnauthorizedIsNotRetried(token: string, url: string, body: Body)
    requires token != ""
    ensures var f := Load(Some(token), url, Responded(401, body));
      f.request.Some? && f.result.Abrupt? && f.result.thrown == FailureFor(401, body, ["detail"])
  {
  }
}

=== FILE: http.dfy ===
/** The network as the modelled code sees it: a `fetch` either resolves with a
    status and a body, or rejects. Each call's outcome is supplied from
    outside, so no real I/O, timing or navigation appears in the model. */
module Http {
  import opened Js

  /** Statuses a browser or server `fetch` can resolve with. */
  type Status = s: int | 200 <= s <= 599 witness 200

  /** `response.ok` */
  predicate IsOk(s: Status) {
    200 <= s <= 299
  }

  /** 401 Unauthorized or 403 Forbidden (sections 15.5.2 and 15.5.4 of RFC 9110). */
  predicate IsAuthFailure(s: Status) {
    s == 401 || s == 403
  }

  /** A response body as `response.json()` / `request.json()` finds it. */
  datatype Body = Json(value: Value) | NotJson

  /** One call to `fetch`. */
  datatype Outcome =
    | Responded(status: Status, body: Body)
    | Aborted       // rejected as "AbortError": the request's signal was aborted
    | TimedOut      // rejected as "TimeoutError": an `AbortSignal.timeout` signal fired
    | Unreachable   // any other rejection

  type Headers = map<string, string>

  /** A request as handed to `fetch`: the method (`verb`), the URL, its headers and
      its JSON body (None when the request has no body or the caller's body
      is opaque). */
  datatype Request = Request(verb: string, url: string, headers: Headers, payload: Option<Value>)

  const MethodGet := "GET"
  const MethodPost := "POST"

  const ContentType := "Content-Type"
  const Authorization := "Authorization"
  const JsonMedia := "application/json"

  /** `Bearer <token>`: the credential syntax of section 2.1 of RFC 6750. */
  function Bearer(token: string): string {
    "Bearer " + token
  }

  /** `await response.json()` */
  function ReadJson(b: Body): Completion<Value> {
    match b
    case Json(v) => Normal(v)
    case NotJson => Abrupt(SyntaxError)
  }

  /** The exception a rejected `fetch` throws. */
  function Rejection(o: Outcome): Thrown
    requires !o.Responded?
  {
    match o
    case Aborted => AbortError
    case TimedOut => TimeoutError
    case Unreachable => NetworkError
  }

  /** The generic message used when no body field supplies one. */
  function StatusMessage(status: Status): string {
    "HTTP error! status: " + NatToString(status)
  }

  /** The message of `new Error(v[keys[0]] || v[keys[1]] || ... || "HTTP error! status: N")`:
      the first truthy field among `keys`, rendered by `String`, else the
      generic status message. */
  function ErrorMessage(status: Status, v: Value, keys: seq<string>): (m: string)
    requires !v.Null?
    ensures forall i :: 0 <= i < |keys| && IsTruthy(Get(v, keys[i]))
                        && (forall j :: 0 <= j < i ==> !IsTruthy(Get(v, keys[j])))
                        ==> m == PropToString(Get(v, keys[i]))
    ensures (forall i :: 0 <= i < |keys| ==> !IsTruthy(Get(v, keys[i]))) ==> m == StatusMessage(status)
  {
    if |keys| == 0 then StatusMessage(status)
    else if IsTruthy(Get(v, keys[0])) then PropToString(Get(v, keys[0]))
    else
      var rest := ErrorMessage(status, v, keys[1..]);
      assert forall i :: 1 <= i < |keys| ==> keys[i] == keys[1..][i - 1];
      rest
  }

  /** What `if (!response.ok) { const e = await response.json(); throw new Error(e.k1 || ... ) }`
      throws for a non-ok response: SyntaxError for a non-JSON body,
      TypeError for a JSON `null` body, otherwise an Error with `ErrorMessage`. */
  function FailureFor(status: Status, body: Body, keys: seq<string>): Thrown {
    match body
    case NotJson => SyntaxError
    case Json(v) => if v.Null? then TypeError else Error(ErrorMessage(status, v, keys))
  }
}

=== FILE: js.dfy ===
/** JavaScript values as the dashboard sees them after `JSON.parse`, and the
    handful of language coercions its session code relies on: truthiness,
    property reads, `a || b`, and `String(x)` (used by template literals,
    `localStorage.setItem` and `new Error(x)`). */
module Js {

  datatype Option<+T> = None | Some(value: T)

  /** A parsed JSON value. JSON numbers are restricted to integers. */
  datatype Value =
    | Null
    | Bool(b: bool)
    | Num(n: int)
    | Str(s: string)
    | Arr(items: seq<Value>)
    | Obj(fields: map<string, Value>)

  /** The result of reading a property: `undefined` or a value. */
  datatype Prop = Undefined | Defined(value: Value)

  /** What a `throw` carries, as far as the modelled code tells them apart. */
  datatype Thrown =
    | Error(message: string)   // new Error(message)
    | TypeError                // a property read on null
    | SyntaxError              // JSON.parse / response.json() on a non-JSON text
    | AbortError               // a fetch rejected with a DOMException named "AbortError"
    | TimeoutError             // a fetch rejected with a DOMException named "TimeoutError"
    | NetworkError             // a fetch rejected for any other reason

  /** Normal completion with a value, or an exception. */
  datatype Completion<+T> = Normal(value: T) | Abrupt(thrown: Thrown)

  predicate Truthy(v: Value) {
    match v
    case Null => false
    case Bool(b) => b
    case Num(n) => n != 0
    case Str(s) => s != ""
    case Arr(_) => true
    case Obj(_) => true
  }

  predicate IsTruthy(p: Prop) {
    p.Defined? && Truthy(p.value)
  }

  /** `v.key` for a non-null `v`; none of the keys the dashboard reads is an
      inherited property of strings, numbers or arrays. */
  function Get(v: Value, key: string): Prop
    requires !v.Null?
  {
    if v.Obj? && key in v.fields then Defined(v.fields[key]) else Undefined
  }

  /** `a || b` */
  function Or(a: Prop, b: Prop): Prop {
    if IsTruthy(a) then a else b
  }

  /** A stored string read back with `localStorage.getItem(key)` is truthy. */
  predicate Present(item: Option<string>) {
    item.Some? && item.value != ""
  }

  function DigitChar(d: nat): (c: char)
    requires d < 10
  {
    ('0' as int + d) as char
  }

  predicate AllDigits(s: string) {
    forall i :: 0 <= i < |s| ==> '0' <= s[i] <= '9'
  }

  /** The number a string of decimal digits denotes, read most significant
      digit first; the reference reading for `NatToString`. */
  function DigitsValue(s: string): nat
    requires AllDigits(s)
  {
    if |s| == 0 then 0
    else DigitsValue(s[..|s| - 1]) * 10 + (s[|s| - 1] as int - '0' as int)
  }

  /** Decimal rendering of a non-negative integer, as `String(n)` does:
      the shortest digit string that reads back as `n`. */
  function NatToString(n: nat): (s: string)
    ensures |s| >= 1
    ensures |s| == 1 <==> n < 10
    ensures AllDigits(s)
    ensures DigitsValue(s) == n
    ensures |s| > 1 ==> s[0] != '0'
    ensures s[|s| - 1] == DigitChar(n % 10)
    decreases n
  {
    if n < 10 then [DigitChar(n)]
    else
      var prefix := NatToString(n / 10);
      var s := prefix + [DigitChar(n % 10)];
      assert s[..|s| - 1] == prefix;
      s
  }

  function IntToString(n: int): string {
    if n < 0 then "-" + NatToString(-n) else NatToString(n)
  }

  /** `String(v)` */
  function ValueToString(v: Value): string
    decreases v, 1, 0
  {
    match v
    case Null => "null"
    case Bool(b) => if b then "true" else "false"
    case Num(n) => IntToString(n)
    case Str(s) => s
    case Arr(_) => JoinItems(v, 0)
    case Obj(_) => "[object Object]"
  }

  /** `Array.prototype.join(",")` from index `k` on: null items become "". */
  function JoinItems(v: Value, k: nat): string
    requires v.Arr? && k <= |v.items|
    decreases v, 0, |v.items| - k
  {
    if k == |v.items| then ""
    else
      (if k > 0 then "," else "")
      + (if v.items[k].Null? then "" else ValueToString(v.items[k]))
      + JoinItems(v, k + 1)
  }

  /** `String(p)`: `undefined` renders as "undefined". */
  function PropToString(p: Prop): string {
    match p
    case Undefined => "undefined"
    case Defined(v) => ValueToString(v)
  }

  /** Distinct timestamps render as distinct decimal strings. */
  lemma {:induction false} NatToStringInjective(m: nat, n: nat)
    requires NatToString(m) == NatToString(n)
    ensures m == n
    decreases m
  {
    if m < 10 {
      assert n < 10;
      assert DigitChar(m) == NatToString(m)[0] == NatToString(n)[0] == DigitChar(n);
    } else {
      assert n >= 10;
      var a, b := NatToString(m / 10), NatToString(n / 10);
      assert NatToString(m) == a + [DigitChar(m % 10)];
      assert NatToString(n) == b + [DigitChar(n % 10)];
      assert |a| == |b|;
      assert a == NatToString(m)[..|a|] == NatToString(n)[..|b|] == b;
      assert DigitChar(m % 10) == DigitChar(n % 10);
      NatToStringInjective(m / 10, n / 10);
    }
  }

  /** A fixed prefix followed by distinct timestamps gives distinct strings. */
  lemma StampedInjective(prefix: string, m: nat, n: nat)
    requires prefix + NatToString(m) == prefix + NatToString(n)
    ensures m == n
  {
    assert NatToString(m) == (prefix + NatToString(m))[|prefix|..];
    assert NatToString(n) == (prefix + NatToString(n))[|prefix|..];
    NatToStringInjective(m, n);
  }
}

=== FILE: labels.dfy ===
/** The display lookups of app/page.tsx: status colours and icons, the
    transaction icon, the status and transaction labels, and the sign shown
    before a points amount. Each lookup is total, with a default. */
module Labels {
  import opened Text

  // StudentsTable's getStatusColor: case-insensitive.
  const ActiveColor := "bg-green-500 shadow-green-500/50"
  const InactiveColor := "bg-red-500 shadow-red-500/50"
  const PendingColor := "bg-yellow-500 shadow-yellow-500/50"
  const SuspendedColor := "bg-orange-500 shadow-orange-500/50"
  const UnknownStudentColor := "bg-gray-500 shadow-gray-500/50"

  /** The student statuses the table colours specially. */
  const StudentStatuses: set<string> := {"active", "inactive", "pending", "suspended"}

  function StudentStatusColor(status: string): (c: string)
    ensures c != UnknownStudentColor <==> LowerAll(status) in StudentStatuses
    ensures c in {ActiveColor, InactiveColor, PendingColor, SuspendedColor, UnknownStudentColor}
  {
    match LowerAll(status)
    case "active" => ActiveColor
    case "inactive" => InactiveColor
    case "pending" => PendingColor
    case "suspended" => SuspendedColor
    case _ => UnknownStudentColor
  }

  // The student detail view's getStatusColor and getStatusIcon for task
  // assignments: case-insensitive.
  const UnknownTaskColor := "bg-gray-500 text-white"
  const TaskStatuses: set<string> := {"completed", "pending", "skipped", "in_progress"}

  function TaskStatusColor(status: string): (c: string)
    ensures c != UnknownTaskColor <==> LowerAll(status) in TaskStatuses
  {
    match LowerAll(status)
    case "completed" => "bg-green-500 text-white"
    case "pending" => "bg-yellow-500 text-white"
    case "skipped" => "bg-red-500 text-white"
    case "in_progress" => "bg-blue-500 text-white"
    case _ => UnknownTaskColor
  }

  const UnknownTaskIcon := "\U{1F4DD}"

  /** Note: "in_progress" has a colour of its own but the default icon. */
  function TaskStatusIcon(status: string): (icon: string)
    ensures icon != UnknownTaskIcon <==> LowerAll(status) in {"completed", "pending", "skipped"}
  {
    match LowerAll(status)
    case "completed" => "\U{2713}"
    case "pending" => "\U{23F3}"
    case "skipped" => "\U{23ED}"
    case _ => UnknownTaskIcon
  }

  const DeductedIcon := "\U{1F4B8}"
  const UnknownTransactionIcon := "\U{1F4CA}"

  function TransactionIcon(transactionType: string): (icon: string)
    ensures icon != UnknownTransactionIcon <==> LowerAll(transactionType) in {"earned", "bonus", "deducted"}
    ensures icon == DeductedIcon <==> LowerAll(transactionType) == "deducted"
  {
    match LowerAll(transactionType)
    case "earned" => "\U{1F4B0}"
    case "bonus" => "\U{1F381}"
    case "deducted" => DeductedIcon
    case _ => UnknownTransactionIcon
  }

  // The page component's own getStatusColor: case-sensitive.
  const UnknownCoachColor := "bg-gray-500"
  const CoachStatuses: set<string> := {"New", "In Progress", "Stuck", "Completed"}

  function ConversationStatusColor(status: string): (c: string)
    ensures c != UnknownCoachColor <==> status in CoachStatuses
  {
    match status
    case "New" => "bg-blue-500 shadow-blue-500/50"
    case "In Progress" => "bg-yellow-500 shadow-yellow-500/50"
    case "Stuck" => "bg-red-500 shadow-red-500/50"
    case "Completed" => "bg-green-500 shadow-green-500/50"
    case _ => UnknownCoachColor
  }

  /** `status.replace("_", " ").toUpperCase()` */
  function StatusLabel(status: string): (shown: string)
    ensures |shown| == |status|
    ensures forall i :: 0 <= i < |status| ==>
              shown[i] == (if status[i] == '_' && '_' !in status[..i] then ' ' else Upper(status[i]))
  {
    UpperAll(ReplaceFirst(status, '_', ' '))
  }

  /** `transaction_type.replace("_", " ")` */
  function TransactionLabel(transactionType: string): (shown: string)
    ensures |shown| == |transactionType|
    ensures forall i :: 0 <= i < |transactionType| ==>
              shown[i] == (if transactionType[i] == '_' && '_' !in transactionType[..i] then ' ' else transactionType[i])
    ensures '_' !in transactionType ==> shown == transactionType
  {
    ReplaceFirst(transactionType, '_', ' ')
  }

  /** The sign before a points amount. */
  function PointsSign(transactionType: string): (sign: string)
    ensures sign == "-" <==> transactionType == "deducted"
    ensures sign == "+" <==> transactionType != "deducted"
  {
    if transactionType == "deducted" then "-" else "+"
  }

  /** Colour lookups of the two case-insensitive tables depend only on the
      lower-cased status. */
  lemma LookupsIgnoreCase(s: string, t: string)
    requires LowerAll(s) == LowerAll(t)
    ensures StudentStatusColor(s) == StudentStatusColor(t)
    ensures TaskStatusColor(s) == TaskStatusColor(t)
    ensures TaskStatusIcon(s) == TaskStatusIcon(t)
    ensures TransactionIcon(s) == TransactionIcon(t)
  {
  }

  /** The page's own colour lookup is case-sensitive: "new" falls to the default. */
  lemma ConversationColorIsCaseSensitive()
    ensures ConversationStatusColor("New") != ConversationStatusColor("new")
  {
    assert "new" !in CoachStatuses;
  }

  /** A "Deducted" transaction gets the deducted icon (case-insensitive)
      but a "+" sign (case-sensitive). */
  lemma DeductedIconWithPlusSign()
    ensures TransactionIcon("Deducted") == DeductedIcon
    ensures PointsSign("Deducted") == "+"
  {
    assert LowerAll("Deducted") == "deducted";
  }

  /** Only the first underscore becomes a space: any later one survives in
      both labels (so "in_progress_late" reads "IN PROGRESS_LATE"). */
  lemma LaterUnderscoresSurvive(s: string, i: int, j: int)
    requires 0 <= i < j < |s| && s[i] == '_' && s[j] == '_'
    ensures StatusLabel(s)[j] == '_'
    ensures TransactionLabel(s)[j] == '_'
  {
    assert s[..j][i] == '_';
  }
}

=== FILE: lifecycle.dfy ===
/** The session lifecycle as a whole: any sequence of logins, logouts, page
    reloads and authenticated API calls, and the browser code composed with
    the mock-mode routes it talks to. */
module Lifecycle {
  import opened Js
  import opened Http
  import opened TokenStore
  import opened Executor
  import opened Proxy
  import opened Dashboard
  import LoginRoute
  import RefreshRoute

  datatype Event =
    | LoginAttempt(answer: Outcome)
    | LogoutClicked
    | PageLoad
    | ApiCall(url: string, verb: string, headers: Headers, payload: Option<Value>, net: Script)

  /** One event's effect on storage and page state. A redirect by the
      executor navigates to a new page, whose state is `Initial`. */
  function Apply(s: Step, e: Event): (t: Step)
    ensures Paired(s.store) ==> Paired(t.store)
    ensures e.ApiCall? && Execute(s.store, e.url, e.verb, e.headers, e.payload, e.net).redirect.Some? ==> t.ui == Initial
    ensures e.ApiCall? && Execute(s.store, e.url, e.verb, e.headers, e.payload, e.net).redirect.None? ==> t.ui == s.ui
  {
    match e
    case LoginAttempt(o) => HandleLogin(s.store, s.ui, o)
    case LogoutClicked => HandleLogout(s.store, s.ui)
    case PageLoad => Restore(s.store, Initial)
    case ApiCall(url, verb, headers, payload, net) =>
      var x := Execute(s.store, url, verb, headers, payload, net);
      Step(x.store, if x.redirect.Some? then Initial else s.ui)
  }

  function Replay(s: Step, events: seq<Event>): Step
    decreases |events|
  {
    if |events| == 0 then s else Replay(Apply(s, events[0]), events[1..])
  }

  /** Whatever happens, the two tokens are stored together or not at all:
      every transition writes both, removes all three keys, or replaces
      only an access token whose refresh token is stored. */
  lemma {:induction false} PairingPreserved(s: Step, events: seq<Event>)
    requires Paired(s.store)
    ensures Paired(Replay(s, events).store)
    decreases |events|
  {
    if |events| > 0 {
      PairingPreserved(Apply(s, events[0]), events[1..]);
    }
  }

  /** Logging out at the end of any history leaves no session behind. */
  lemma {:induction false} LogoutEndsEverySession(s: Step, events: seq<Event>)
    ensures Replay(s, events + [LogoutClicked]).store == Cleared
    decreases |events|
  {
    if |events| == 0 {
      assert events + [LogoutClicked] == [LogoutClicked];
    } else {
      assert (events + [LogoutClicked])[1..] == events[1..] + [LogoutClicked];
      LogoutEndsEverySession(Apply(s, events[0]), events[1..]);
    }
  }

  /** The login form's request as the login route reads it. */
  function LoginBody(ui: Ui): Body {
    Json(LoginRequest(ui).payload.value)
  }

  /** Logging in with the demo credentials against the mock route stores the
      two stamped tokens and the demo profile, and authenticates. */
  lemma MockLoginEndToEnd(store: Store, ui: Ui, accessNow: nat, refreshNow: nat, upstream: Outcome)
    requires ui.email == LoginRoute.DemoEmail && ui.password == LoginRoute.DemoPassword
    ensures var answer := Delivered(LoginRoute.Login(LoginBody(ui), None, accessNow, refreshNow, upstream).reply);
      var s := HandleLogin(store, ui, answer);
      && s.store.accessToken == Some(LoginRoute.AccessPrefix + NatToString(accessNow))
      && s.store.refreshToken == Some(LoginRoute.RefreshPrefix + NatToString(refreshNow))
      && s.store.coachData == Some(Serialized(LoginRoute.MockSession(Str(LoginRoute.DemoEmail), accessNow, refreshNow).fields["coach"]))
      && IsAuthenticated(s.store)
      && s.ui.loggedIn
  {
    var body := Obj(map["email" := Str(ui.email), "password" := Str(ui.password)]);
    assert Get(body, "email") == Defined(Str(LoginRoute.DemoEmail));
    assert Get(body, "password") == Defined(Str(LoginRoute.DemoPassword));
  }

  /** A 401 answered by the mock refresh route: the executor stores the
      refreshed access token, keeps the refresh token, and retries once
      with the new bearer header. */
  lemma MockRefreshCycle(store: Store, url: string, verb: string, headers: Headers, payload: Option<Value>,
                         first: Outcome, retry: Outcome, now: nat, upstream: Outcome)
    requires first.Responded? && IsAuthFailure(first.status)
    requires Present(store.refreshToken)
    ensures var refreshCall := RefreshRequest(store.refreshToken.value);
      var answer := Delivered(RefreshRoute.Refresh(Json(refreshCall.payload.value), None, now, upstream).reply);
      var x := Execute(store, url, verb, headers, payload, Script(first, answer, retry));
      var renewed := RefreshRoute.RefreshedPrefix + NatToString(now);
      && |x.calls| == 3
      && x.store == store.(accessToken := Some(renewed))
      && x.calls[2].headers[Authorization] == Bearer(renewed)
      && x.redirect.None?
  {
    var token := store.refreshToken.value;
    var body := Obj(map["refresh_token" := Str(token)]);
    assert RefreshRequest(token).payload.value == body;
    assert Get(body, "refresh_token") == Defined(Str(token));
    var reply := RefreshRoute.Refresh(Json(body), None, now, upstream).reply;
    assert reply == Reply(200, RefreshRoute.MockRefresh(Str(token), now));
    var renewed := RefreshRoute.RefreshedPrefix + NatToString(now);
    assert Get(reply.body, "access_token") == Defined(Str(renewed));
    assert PropToString(Get(reply.body, "access_token")) == renewed;
  }
}

=== FILE: login_route.dfy ===
/** The `POST /api/auth/login` handler of app/api/auth/login/route.ts as a
    pure decision from (request body, backend address, clock readings,
    backend outcome) to a reply and the backend request made. */
module LoginRoute {
  import opened Js
  import opened Http
  import opened Proxy

  const DemoEmail := "demo@supercoach.ai"
  const DemoPassword := "demo123"
  const AccessPrefix := "mock_access_token_"
  const RefreshPrefix := "mock_refresh_token_"
  const LoginPath := "/api/auth/login"
  const InternalText := "Internal server error. Please try again."
  const MissingText := "Email and password are required"
  const InvalidText := "Invalid email or password"

  const LoginTexts := Texts("Authentication failed",
                            "Authentication service timeout. Please try again.",
                            "Authentication service unavailable. Please try again later.")

  /** The body parsed and destructurable, and both `email` and `password` truthy. */
  predicate CredentialsGiven(request: Body) {
    request.Json? && !request.value.Null?
    && IsTruthy(Get(request.value, "email")) && IsTruthy(Get(request.value, "password"))
  }

  /** The synthetic session of mock mode; `accessNow` and `refreshNow` are
      the two `Date.now()` readings. */
  function MockSession(email: Value, accessNow: nat, refreshNow: nat): Value {
    Obj(map[
      "access_token" := Str(AccessPrefix + NatToString(accessNow)),
      "refresh_token" := Str(RefreshPrefix + NatToString(refreshNow)),
      "coach" := Obj(map[
        "id" := Num(1),
        "name" := Str("Demo Coach"),
        "email" := email,
        "phone" := Str("1234567890"),
        "auth_user_id" := Str("demo_auth_uid")]),
      "expires_in" := Num(3600)])
  }

  function Login(request: Body, backendUrl: Option<string>, accessNow: nat, refreshNow: nat, upstream: Outcome): (r: RouteResult)
    // an unreadable body, or `null` (which cannot be destructured), is an internal error
    ensures request.NotJson? || request == Json(Null) ==> r == RouteResult(Reply(500, Message(InternalText)), None)
    // validation comes before the configuration check
    ensures request.Json? && !request.value.Null? && !CredentialsGiven(request) ==>
              r == RouteResult(Reply(400, Message(MissingText)), None)
    // the backend is contacted exactly when credentials are given and it is configured
    ensures r.forwarded.Some? <==> CredentialsGiven(request) && Configured(backendUrl)
    ensures r.forwarded.Some? ==>
              && r.forwarded.value == Forward(backendUrl.value, LoginPath,
                   Obj(map["email" := request.value.fields["email"], "password" := request.value.fields["password"]]))
              && r.reply == Relay(upstream, LoginTexts)
    // mock mode accepts exactly the demo credentials
    ensures CredentialsGiven(request) && !Configured(backendUrl) ==>
              (r.reply.status == 200 <==>
                 Get(request.value, "email") == Defined(Str(DemoEmail)) && Get(request.value, "password") == Defined(Str(DemoPassword)))
    ensures CredentialsGiven(request) && !Configured(backendUrl) && r.reply.status == 200 ==>
              r.reply.body == MockSession(Str(DemoEmail), accessNow, refreshNow)
    ensures CredentialsGiven(request) && !Configured(backendUrl) && r.reply.status != 200 ==>
              r.reply == Reply(401, Message(InvalidText))
  {
    match request
    case NotJson => RouteResult(Reply(500, Message(InternalText)), None)
    case Json(body) =>
      if body.Null? then RouteResult(Reply(500, Message(InternalText)), None)
      else
        var email, password := Get(body, "email"), Get(body, "password");
        if !IsTruthy(email) || !IsTruthy(password) then
          RouteResult(Reply(400, Message(MissingText)), None)
        else if !Configured(backendUrl) then
          if email == Defined(Str(DemoEmail)) && password == Defined(Str(DemoPassword)) then
            RouteResult(Reply(200, MockSession(email.value, accessNow, refreshNow)), None)
          else
            RouteResult(Reply(401, Message(InvalidText)), None)
        else
          var forwarded := Forward(backendUrl.value, LoginPath, Obj(map["email" := email.value, "password" := password.value]));
          RouteResult(Relay(upstream, LoginTexts), Some(forwarded))
  }

  /** A login request body `{ email, password }` with string fields. */
  function Credentials(email: string, password: string): Body {
    Json(Obj(map["email" := Str(email), "password" := Str(password)]))
  }

  /** The demo login in mock mode returns two non-empty tokens, the demo
      email as the coach's email, and a one-hour lifetime; any other
      password is refused with 401. */
  lemma MockDemoLogin(accessNow: nat, refreshNow: nat, upstream: Outcome, password: string)
    requires password != "" && password != DemoPassword
    ensures var r := Login(Credentials(DemoEmail, DemoPassword), None, accessNow, refreshNow, upstream);
      && r.reply.status == 200 && r.forwarded.None?
      && r.reply.body.fields["access_token"].s != ""
      && r.reply.body.fields["refresh_token"].s != ""
      && r.reply.body.fields["coach"].fields["email"] == Str(DemoEmail)
      && r.reply.body.fields["expires_in"] == Num(3600)
    ensures Login(Credentials(DemoEmail, password), None, accessNow, refreshNow, upstream).reply.status == 401
  {
    var body := Obj(map["email" := Str(DemoEmail), "password" := Str(password)]);
    assert Get(body, "password") == Defined(Str(password));
  }

  /** Mock tokens from different clock readings differ, and a mock access
      token never equals a mock refresh token. */
  lemma MockTokensDistinct(a1: nat, r1: nat, a2: nat, r2: nat)
    ensures var s1, s2 := MockSession(Str(DemoEmail), a1, r1), MockSession(Str(DemoEmail), a2, r2);
      && (a1 != a2 ==> s1.fields["access_token"] != s2.fields["access_token"])
      && (r1 != r2 ==> s1.fields["refresh_token"] != s2.fields["refresh_token"])
      && s1.fields["access_token"].s != s2.fields["refresh_token"].s
  {
    if a1 != a2 && AccessPrefix + NatToString(a1) == AccessPrefix + NatToString(a2) {
      StampedInjective(AccessPrefix, a1, a2);
    }
    if r1 != r2 && RefreshPrefix + NatToString(r1) == RefreshPrefix + NatToString(r2) {
      StampedInjective(RefreshPrefix, r1, r2);
    }
    assert (AccessPrefix + NatToString(a1))[5] == 'a' != 'r' == (RefreshPrefix + NatToString(r2))[5];
  }

  /** With a backend configured and credentials given: the 10-second
      timeout (a "TimeoutError" rejection) is answered 503 "service
      unavailable"; only a rejection named "AbortError" would be 504. */
  lemma TimeoutMapping(email: string, password: string, backendUrl: string, accessNow: nat, refreshNow: nat)
    requires email != "" && password != "" && backendUrl != ""
    ensures Login(Credentials(email, password), Some(backendUrl), accessNow, refreshNow, TimedOut).reply
         == Reply(503, Message("Authentication service unavailable. Please try again later."))
    ensures Login(Credentials(email, password), Some(backendUrl), accessNow, refreshNow, Aborted).reply
         == Reply(504, Message("Authentication service timeout. Please try again."))
  {
    var body := Obj(map["email" := Str(email), "password" := Str(password)]);
    assert Get(body, "email") == Defined(Str(email));
    assert Get(body, "password") == Defined(Str(password));
  }

  /** A 403 from the backend with `{"message": "forbidden"}` is passed on as
      403 with that message and nothing else. */
  lemma ForbiddenPassThrough(email: string, password: string, backendUrl: string, accessNow: nat, refreshNow: nat)
    requires email != "" && password != "" && backendUrl != ""
    ensures Login(Credentials(email, password), Some(backendUrl), accessNow, refreshNow,
                  Responded(403, Json(Obj(map["message" := Str("forbidden")])))).reply
            == Reply(403, Message("forbidden"))
  {
    var body := Obj(map["email" := Str(email), "password" := Str(password)]);
    assert Get(body, "email") == Defined(Str(email));
    assert Get(body, "password") == Defined(Str(password));
  }
}

=== FILE: proxy.dfy ===
/** What the two server routes (app/api/auth/login/route.ts and
    app/api/auth/refresh/route.ts) share: their JSON replies, the
    configuration switch between mock and backend mode, and the
    forwarding of a request to the backend with its error mapping. */
module Proxy {
  import opened Js
  import opened Http

  /** `NextResponse.json(body, { status })` */
  datatype Reply = Reply(status: Status, body: Value)

  /** A route's reply and the backend request it made, if any. */
  datatype RouteResult = RouteResult(reply: Reply, forwarded: Option<Request>)

  /** `{ message: text }` */
  function Message(text: string): Value {
    Obj(map["message" := Str(text)])
  }

  /** The reply as the browser's `fetch` of the route receives it. */
  function Delivered(r: Reply): Outcome {
    Responded(r.status, Json(r.body))
  }

  /** `process.env.BACKEND_URL` is set and non-empty; otherwise the routes run in mock mode. */
  predicate Configured(backendUrl: Option<string>) {
    Present(backendUrl)
  }

  /** The backend request both routes build: a JSON POST to `backend + path`. */
  function Forward(backendUrl: string, path: string, payload: Value): Request {
    Request(MethodPost, backendUrl + path, map[ContentType := JsonMedia], Some(payload))
  }

  /** The three route-specific texts of the forwarding step. */
  datatype Texts = Texts(rejected: string, timeout: string, unavailable: string)

  /** The inner `try` of both routes as written: a non-ok backend answer
      keeps its status but only its `message` (or a fallback text); an ok
      answer is returned as is with status 200. In the `catch`, only a
      rejection named "AbortError" becomes 504. The routes' own 10-second
      `AbortSignal.timeout` rejects with a "TimeoutError", so a timeout
      becomes 503 like every other failure, including a backend body that
      is not JSON or is `null` when read. */
  function Relay(o: Outcome, texts: Texts): (r: Reply)
    ensures r.status == 200 <==> o.Responded? && IsOk(o.status) && o.body.Json?
    ensures r.status == 200 ==> r.body == o.body.value
    ensures !(o.Responded? && o.status == 504) ==> (r.status == 504 <==> o.Aborted?)
    ensures o.Aborted? ==> r == Reply(504, Message(texts.timeout))
    ensures o.TimedOut? || o.Unreachable? || (o.Responded? && o.body.NotJson?) ==> r == Reply(503, Message(texts.unavailable))
    ensures o.Responded? && !IsOk(o.status) && o.body == Json(Null) ==> r == Reply(503, Message(texts.unavailable))
    ensures o.Responded? && !IsOk(o.status) && o.body.Json? && !o.body.value.Null? ==>
              && r.status == o.status
              && r.body.Obj? && r.body.fields.Keys == {"message"}
              && (IsTruthy(Get(o.body.value, "message")) ==> Defined(r.body.fields["message"]) == Get(o.body.value, "message"))
              && (!IsTruthy(Get(o.body.value, "message")) ==> r.body.fields["message"] == Str(texts.rejected))
  {
    match o
    case Aborted => Reply(504, Message(texts.timeout))
    case TimedOut => Reply(503, Message(texts.unavailable))
    case Unreachable => Reply(503, Message(texts.unavailable))
    case Responded(st, NotJson) => Reply(503, Message(texts.unavailable))
    case Responded(st, Json(data)) =>
      if IsOk(st) then Reply(200, data)
      else if data.Null? then Reply(503, Message(texts.unavailable))
      else Reply(st, Obj(map["message" := Or(Get(data, "message"), Defined(Str(texts.rejected))).value]))
  }

  /** The forwarding step with the timeout test the routes evidently intend
      (`name === "AbortError" || name === "TimeoutError"`): the 10-second
      timeout is answered with 504 and the timeout text. */
  function RelayIntended(o: Outcome, texts: Texts): (r: Reply)
    ensures !(o.Responded? && o.status == 504) ==> (r.status == 504 <==> o.Aborted? || o.TimedOut?)
    ensures o.Aborted? || o.TimedOut? ==> r == Reply(504, Message(texts.timeout))
    ensures r.status == 200 <==> o.Responded? && IsOk(o.status) && o.body.Json?
    ensures r.status == 200 ==> r.body == o.body.value
    ensures o.Unreachable? || (o.Responded? && o.body.NotJson?) ==> r == Reply(503, Message(texts.unavailable))
  {
    match o
    case Aborted => Reply(504, Message(texts.timeout))
    case TimedOut => Reply(504, Message(texts.timeout))
    case Unreachable => Reply(503, Message(texts.unavailable))
    case Responded(st, NotJson) => Reply(503, Message(texts.unavailable))
    case Responded(st, Json(data)) =>
      if IsOk(st) then Reply(200, data)
      else if data.Null? then Reply(503, Message(texts.unavailable))
      else Reply(st, Obj(map["message" := Or(Get(data, "message"), Defined(Str(texts.rejected))).value]))
  }

  /** The code as written answers its own timeout with 503 "unavailable",
      never 504 "timeout"; the intended forwarding step differs from it on
      exactly that outcome. */
  lemma TimeoutAnsweredUnavailable(o: Outcome, texts: Texts)
    requires texts.timeout != texts.unavailable
    ensures Relay(TimedOut, texts) == Reply(503, Message(texts.unavailable))
    ensures RelayIntended(TimedOut, texts) == Reply(504, Message(texts.timeout))
    ensures Relay(o, texts) == RelayIntended(o, texts) <==> !o.TimedOut?
  {
    if o.TimedOut? {
      assert Message(texts.timeout).fields["message"] != Message(texts.unavailable).fields["message"];
    }
  }
}

=== FILE: refresh_route.dfy ===
/** The `POST /api/auth/refresh` handler of app/api/auth/refresh/route.ts as a
    pure decision from (request body, backend address, clock reading,
    backend outcome) to a reply and the backend request made. */
module RefreshRoute {
  import opened Js
  import opened Http
  import opened Proxy

  const RefreshedPrefix := "mock_access_token_refreshed_"
  const RefreshPath := "/api/auth/refresh"
  const InternalText := "Internal server error"
  const MissingText := "Refresh token is required"

  const RefreshTexts := Texts("Token refresh failed",
                              "Token refresh timeout. Please try again.",
                              "Token refresh service unavailable. Please try again later.")

  /** The body parsed and destructurable, with a truthy `refresh_token`. */
  predicate TokenGiven(request: Body) {
    request.Json? && !request.value.Null? && IsTruthy(Get(request.value, "refresh_token"))
  }

  /** The mock answer: a fresh access token stamped with `now`, the same
      refresh token back. */
  function MockRefresh(token: Value, now: nat): Value {
    Obj(map[
      "access_token" := Str(RefreshedPrefix + NatToString(now)),
      "refresh_token" := token,
      "expires_in" := Num(3600)])
  }

  function Refresh(request: Body, backendUrl: Option<string>, now: nat, upstream: Outcome): (r: RouteResult)
    ensures request.NotJson? || request == Json(Null) ==> r == RouteResult(Reply(500, Message(InternalText)), None)
    // validation comes before the configuration check
    ensures request.Json? && !request.value.Null? && !TokenGiven(request) ==>
              r == RouteResult(Reply(400, Message(MissingText)), None)
    ensures r.forwarded.Some? <==> TokenGiven(request) && Configured(backendUrl)
    ensures r.forwarded.Some? ==>
              && r.forwarded.value == Forward(backendUrl.value, RefreshPath,
                   Obj(map["refresh_token" := request.value.fields["refresh_token"]]))
              && r.reply == Relay(upstream, RefreshTexts)
    // mock mode never refuses a given token and echoes it back unchanged
    ensures TokenGiven(request) && !Configured(backendUrl) ==>
              && r.reply.status == 200
              && r.reply.body == MockRefresh(request.value.fields["refresh_token"], now)
              && r.reply.body.fields["refresh_token"] == request.value.fields["refresh_token"]
  {
    match request
    case NotJson => RouteResult(Reply(500, Message(InternalText)), None)
    case Json(body) =>
      if body.Null? then RouteResult(Reply(500, Message(InternalText)), None)
      else
        var token := Get(body, "refresh_token");
        if !IsTruthy(token) then
          RouteResult(Reply(400, Message(MissingText)), None)
        else if !Configured(backendUrl) then
          RouteResult(Reply(200, MockRefresh(token.value, now)), None)
        else
          RouteResult(Relay(upstream, RefreshTexts), Some(Forward(backendUrl.value, RefreshPath, Obj(map["refresh_token" := token.value]))))
  }

  /** An empty refresh token is refused with 400 whatever the configuration,
      and the backend is not contacted. */
  lemma EmptyTokenRefused(backendUrl: Option<string>, now: nat, upstream: Outcome)
    ensures Refresh(Json(Obj(map["refresh_token" := Str("")])), backendUrl, now, upstream)
         == RouteResult(Reply(400, Message(MissingText)), None)
  {
    assert Get(Obj(map["refresh_token" := Str("")]), "refresh_token") == Defined(Str(""));
  }

  /** With a backend configured and any given token: the 10-second timeout
      (a "TimeoutError" rejection) is answered 503 "service unavailable",
      like an unreachable backend; only a rejection named "AbortError"
      would be answered 504. */
  lemma TimeoutMapping(token: string, backendUrl: string, now: nat)
    requires token != "" && backendUrl != ""
    ensures Refresh(Json(Obj(map["refresh_token" := Str(token)])), Some(backendUrl), now, TimedOut).reply
         == Reply(503, Message("Token refresh service unavailable. Please try again later."))
    ensures Refresh(Json(Obj(map["refresh_token" := Str(token)])), Some(backendUrl), now, Unreachable).reply
         == Reply(503, Message("Token refresh service unavailable. Please try again later."))
    ensures Refresh(Json(Obj(map["refresh_token" := Str(token)])), Some(backendUrl), now, Aborted).reply
         == Reply(504, Message("Token refresh timeout. Please try again."))
  {
    assert Get(Obj(map["refresh_token" := Str(token)]), "refresh_token") == Defined(Str(token));
  }
}

=== FILE: search.dfy ===
/** The student search of the students table (app/page.tsx): a student is
    listed when the lower-cased search term occurs in the lower-cased
    name, email or status. */
module StudentSearch {
  import opened Text

  /** The fields of an `ApiStudent` the table shows. */
  datatype Student = Student(id: int, name: string, email: string, status: string)

  predicate Matches(student: Student, term: string) {
    var q := LowerAll(term);
    Contains(LowerAll(student.name), q) || Contains(LowerAll(student.email), q) || Contains(LowerAll(student.status), q)
  }

  /** `r` keeps some of the elements of `s`, in their original order. */
  predicate IsSubsequence<T(==)>(r: seq<T>, s: seq<T>)
    decreases |s|
  {
    if |r| == 0 then true
    else if |s| == 0 then false
    else if r[0] == s[0] then IsSubsequence(r[1..], s[1..])
    else IsSubsequence(r, s[1..])
  }

  /** `students.filter(student => ...)` */
  function Filter(students: seq<Student>, term: string): (r: seq<Student>)
    ensures forall x :: x in r <==> x in students && Matches(x, term)
    ensures IsSubsequence(r, students)
    ensures |r| <= |students|
  {
    if |students| == 0 then []
    else if Matches(students[0], term) then [students[0]] + Filter(students[1..], term)
    else Filter(students[1..], term)
  }

  /** The empty string occurs in every string. */
  lemma EmptyOccursEverywhere(s: string)
    ensures Contains(s, "")
  {
    assert IsPrefix("", s);
  }

  /** An empty search term lists every student, in order. */
  lemma {:induction false} EmptyTermKeepsAll(students: seq<Student>)
    ensures Filter(students, "") == students
    decreases |students|
  {
    if |students| > 0 {
      EmptyOccursEverywhere(LowerAll(students[0].name));
      assert LowerAll("") == "";
      EmptyTermKeepsAll(students[1..]);
      assert students == [students[0]] + students[1..];
    }
  }

  /** Filtering twice with the same term changes nothing. */
  lemma {:induction false} FilterIdempotent(students: seq<Student>, term: string)
    ensures Filter(Filter(students, term), term) == Filter(students, term)
    decreases |students|
  {
    if |students| > 0 {
      FilterIdempotent(students[1..], term);
      if Matches(students[0], term) {
        var r := Filter(students, term);
        assert r[0] == students[0] && r[1..] == Filter(students[1..], term);
      }
    }
  }

  /** Filtering a concatenation filters each part: together with the
      one-student case this fixes the result, duplicates included. */
  lemma {:induction false} FilterAppend(a: seq<Student>, b: seq<Student>, term: string)
    ensures Filter(a + b, term) == Filter(a, term) + Filter(b, term)
    decreases |a|
  {
    if |a| > 0 {
      assert (a + b)[0] == a[0];
      assert (a + b)[1..] == a[1..] + b;
      FilterAppend(a[1..], b, term);
    } else {
      assert a + b == b;
    }
  }

  /** The search ignores the letter case of the term. */
  lemma SearchIgnoresTermCase(students: seq<Student>, a: string, b: string)
    requires LowerAll(a) == LowerAll(b)
    ensures Filter(students, a) == Filter(students, b)
  {
  }
}

=== FILE: text.dfy ===
/** The string operations the dashboard applies: ASCII `toLowerCase` /
    `toUpperCase`, `includes`, and `replace` with a one-character pattern,
    which rewrites only the first occurrence. */
module Text {

  function Lower(c: char): char {
    if 'A' <= c <= 'Z' then (c as int + 32) as char else c
  }

  function Upper(c: char): char {
    if 'a' <= c <= 'z' then (c as int - 32) as char else c
  }

  /** `s.toLowerCase()` on ASCII letters */
  function LowerAll(s: string): string {
    seq(|s|, i requires 0 <= i < |s| => Lower(s[i]))
  }

  /** `s.toUpperCase()` on ASCII letters */
  function UpperAll(s: string): string {
    seq(|s|, i requires 0 <= i < |s| => Upper(s[i]))
  }

  predicate IsPrefix(p: string, s: string) {
    |p| <= |s| && s[..|p|] == p
  }

  /** `s.includes(t)` */
  predicate Contains(s: string, t: string)
    decreases |s|
  {
    IsPrefix(t, s) || (|s| > 0 && Contains(s[1..], t))
  }

  /** `t` occurs in `s` starting at index `i`. */
  ghost predicate OccursAt(s: string, t: string, i: int) {
    0 <= i && i + |t| <= |s| && s[i..i + |t|] == t
  }

  /** The scanning definition of `includes` agrees with "occurs at some index". */
  lemma {:induction false} ContainsIffOccurs(s: string, t: string)
    ensures Contains(s, t) <==> exists i :: OccursAt(s, t, i)
    decreases |s|
  {
    if IsPrefix(t, s) {
      assert OccursAt(s, t, 0);
    } else if |s| > 0 {
      ContainsIffOccurs(s[1..], t);
      if Contains(s[1..], t) {
        var i :| OccursAt(s[1..], t, i);
        assert s[1..][i..i + |t|] == s[i + 1..i + 1 + |t|];
        assert OccursAt(s, t, i + 1);
      }
      if i :| OccursAt(s, t, i) {
        assert i != 0;
        assert s[1..][i - 1..i - 1 + |t|] == s[i..i + |t|];
        assert OccursAt(s[1..], t, i - 1);
      }
    }
  }

  /** `s.replace(a, b)` for one-character strings `a`, `b`: only the first
      occurrence of `a` is rewritten. */
  function ReplaceFirst(s: string, a: char, b: char): (r: string)
    ensures |r| == |s|
    ensures forall i :: 0 <= i < |s| ==> r[i] == (if s[i] == a && a !in s[..i] then b else s[i])
  {
    if |s| == 0 then s
    else if s[0] == a then
      assert forall i :: 0 < i < |s| ==> a in s[..i] by {
        forall i | 0 < i < |s| ensures a in s[..i] {
          assert s[..i][0] == a;
        }
      }
      [b] + s[1..]
    else
      var rest := ReplaceFirst(s[1..], a, b);
      var r := [s[0]] + rest;
      assert forall i :: 1 <= i < |s| ==> r[i] == (if s[i] == a && a !in s[..i] then b else s[i]) by {
        forall i | 1 <= i < |s|
          ensures r[i] == (if s[i] == a && a !in s[..i] then b else s[i])
        {
          assert s[..i] == [s[0]] + s[1..][..i - 1];
          assert r[i] == rest[i - 1] && s[1..][i - 1] == s[i];
        }
      }
      r
  }
}

=== FILE: token_store.dfy ===
/** The browser-persisted session: the three `localStorage` keys
    `access_token`, `refresh_token` and `coach_data`, and the two read
    helpers of lib/api.ts. */
module TokenStore {
  import opened Js

  /** What `coach_data` holds: the `JSON.stringify` of a value, which parses
      back to that value, or text that is not JSON at all (for instance the
      string "undefined" that `setItem` stores for `JSON.stringify(undefined)`). */
  datatype CoachBlob = Serialized(profile: Value) | Garbled(text: string)

  /** Each field is None when the key is absent from storage. */
  datatype Store = Store(accessToken: Option<string>, refreshToken: Option<string>, coachData: Option<CoachBlob>)

  /** Storage after `removeItem` of all three keys. */
  const Cleared := Store(None, None, None)

  /** `localStorage.getItem("coach_data")` is truthy. */
  predicate CoachPresent(s: Store) {
    s.coachData.Some? && !(s.coachData.value.Garbled? && s.coachData.value.text == "")
  }

  /** `isAuthenticated()`: the access token is stored and non-empty. */
  function IsAuthenticated(s: Store): (b: bool)
    ensures b ==> s.accessToken.Some?
    ensures s.accessToken == Some("") ==> !b
  {
    Present(s.accessToken)
  }

  /** `getCoachData()`: null (`Null`) when the key is absent or empty,
      the parsed profile when it is JSON, and a SyntaxError otherwise. */
  function GetCoachData(s: Store): (c: Completion<Value>)
    ensures !CoachPresent(s) ==> c == Normal(Null)
    ensures s.coachData.Some? && s.coachData.value.Serialized? ==> c == Normal(s.coachData.value.profile)
    ensures (exists v :: s.coachData == Some(Serialized(v))) <==> c.Normal? && CoachPresent(s)
    ensures c.Abrupt? ==> c.thrown == SyntaxError && CoachPresent(s)
  {
    if !CoachPresent(s) then Normal(Null)
    else match s.coachData.value
      case Serialized(v) => Normal(v)
      case Garbled(_) => Abrupt(SyntaxError)
  }

  /** Both tokens stored or neither. */
  predicate Paired(s: Store) {
    s.accessToken.Some? <==> s.refreshToken.Some?
  }
}
